=== FILE: README.md ===
# Swope swipe deck: a Dafny model

Swope is a mobile marketplace app. Users swipe through a deck of clothing
listings, marking each one as *pass* or *favorite*. They sign in with a
password or a one-time code, and they publish new listings with a photo. This
project models the client-side logic of the app screen in `App.js` and the
theme provider in `src/theme/ThemeProvider.js`:

- **Feed state** (`AppState.FeedState`). This holds the fetched listings
  (`items`), the passed and favorite id sets, the optional brand and size
  filters, and the deck cursor (`index`). The operations are the fetch, the
  loading of the user's swipes, the recording of one swipe, the two filter
  setters with their reset effect, and the effect that clamps the cursor.
- **Deck derivations** (`Deck`). `FeedItems` is the visible deck. `Current`
  and `NextItem` pick the top card and the card under it.
- **Swipe sets** (`Swipes`). `SortSwipes` is the loop that sorts stored rows
  into the two sets. `ApplySwipe` is the update made after a successful
  upsert.
- **Publishing** (`AppState.PublishForm`, `Upload`). The form's required
  fields are checked first. The storage extension and content type come from
  the photo's URI. The form is cleared and the feed reloaded only when every
  remote step succeeds.
- **Form checks** (`AuthForms`). These are the checks that run before any
  remote call, and the authentication form state that each handler updates.
- **Theme** (`Theme`). This covers the stored preference, the effective
  theme, the palette, and the older `isDark` rule in `App.js`.

Remote calls are not modelled. Their results are parameters of each step:
- a `Response` is either `Failed` or `Succeeded` with data that may be
  `null`;
- `upsertOk`, `uploadOk`, `insertOk` and `remoteOk` say whether a call
  reported no error;
- the signed-in user is an optional id.

Each handler and effect is one atomic step.

JavaScript semantics are written out where they matter:
- Truthiness: `null`, `undefined` and `""` are falsy. This applies to the
  filters, the user id, the system scheme and the stored preference.
- `password.length` counts UTF-16 code units (`JsValues.Utf16Length`).
- `split('.').pop()` and `split('?')[0]` are `Upload.AfterLast` and
  `Upload.BeforeFirst`.

Where the code and its comments disagree, the model follows the code:
- `recordSwipeByUser` updates a set only after it checks the upsert's
  `error` (App.js:324-327). Despite the comment calling it optimistic, a
  failed upsert changes neither set.

Other facts of the code that the model keeps:
- The clamp effect (App.js:432-436) moves a cursor at or past the end of a
  non-empty deck to `length - 1`. An empty deck leaves the cursor as it is.
- No handler moves the cursor after a swipe.
- `App.js` imports `Swiper` (App.js:8) but never renders it, and `swiperRef`
  (App.js:365) is never attached to a component. Nothing in `App.js` calls
  `recordSwipeByUser`, the filter setters, `uploadImageAndInsert` or the five
  email, password and code handlers. The model gives each of them as the
  step it takes when it is called.
- An effect runs after a commit, only when one of its dependencies changed,
  and reads the values of the render that commit came from. Setting a filter
  to its current value therefore keeps the cursor. When a filter change also
  changes the deck's length, the reset effect (App.js:417-419) and the clamp
  effect both run after the same commit. The clamp tests the cursor from
  before the reset, and its write comes last (see Findings).
- That defect is latent in `App.js` as written. Every `setIndex` call outside
  the clamp (App.js:308, 398, 418) writes 0, and the clamp never moves a
  cursor of 0. So the cursor stays at 0 and the clamp never fires. Each step
  of `AppState.FeedState` keeps a cursor of 0 at 0, and
  `Deck.CursorAtTopStaysAtTop` states it for one commit.
- `loadUserSwipes` without a user empties both sets, and only the clamp moves
  the cursor. With a user, a failed query changes nothing.
- The swipe query has no condition on the user. Which rows it returns is up
  to the service, and the model takes the returned rows as given.
- The extension is the text after the URI's last `.` (App.js:477). A dot
  anywhere in the query string therefore makes the app store the photo as
  `jpg` with content type `image/jpeg`, whatever its format
  (`Upload.DottedQueryHidesExtension`).
- The dependency list of the swipe-loading effect (App.js:313) reads `items`
  before its `const` declaration at App.js:353. Under JavaScript's rules for
  `const`, that read throws a `ReferenceError` on every render of the screen.
  The screen then never mounts, and none of the modelled steps runs. A
  toolchain that compiles `const` to `var` without those checks reads
  `undefined` there instead, and `len(undefined)` is 0. Either way the effect
  never re-runs when the number of listings changes. The model takes the
  screen as mounted and treats `loadUserSwipes` as a step that runs when it
  is called.

## Model

| member | source | states |
|---|---|---|
| `JsValues.Utf16Length` | App.js:159-162 | a password's JavaScript length is between its character count and twice it; it is zero only for the empty string, equals the character count iff every character is in the Basic Multilingual Plane, and is twice it iff none is; one character counts 2 outside that plane and 1 inside it |
| `JsValues.Utf16LengthConcat` | App.js:159-162 | the length of a concatenation is the sum of the parts' lengths, so with the one-character count the length of every password is fixed |
| `Deck.FeedItems` | App.js:408-414 | the deck is an order-preserving subsequence of the listings; it holds each visible listing exactly as often as the listings do and no other; a listing is in it iff it matches each set filter and its id is not passed |
| `Deck.Current` | App.js:421-424 | the top card exists iff the deck is non-empty and the cursor is below its length, and then it is the deck's element at the cursor; no other index is read |
| `Deck.NextItem` | App.js:425 | the card under the top exists iff cursor + 1 is below the deck's length, and then it is that element |
| `Deck.NextIsCurrentOfFollowing` | App.js:421-425 | there is never a next card without a top card, and the next card is the one that would be on top one position further on |
| `Deck.FeedWithoutFiltersIsItems` | App.js:409-413 | with no filter set and nothing passed, the deck is exactly the fetched list |
| `Deck.PassingShrinksFeed` | App.js:408-414 | passing one more id only removes cards: the new deck is a subsequence of the old one and holds no listing with that id |
| `Swipes.SortSwipes` | App.js:301-305 | the loop yields exactly the ids of the `pass` rows and exactly the ids of the `favorite` rows |
| `Swipes.OtherKindsIgnored` | App.js:302-305 | a row of any other kind adds nothing to either set |
| `Swipes.ApplySwipe` | App.js:326-327 | after a successful upsert the id is passed iff it was or the kind is `pass`, and favorite iff it was or the kind is `favorite`; no other id changes membership |
| `Swipes.ApplySwipeIdempotent` | App.js:326-327 | recording the same swipe twice gives the same sets as recording it once |
| `Swipes.ApplySwipeMonotone` | App.js:326-327 | a swipe never removes an id from either set |
| `AppState.FeedState.constructor` | App.js:353-364 | the state starts with no listings, loading, empty sets, no filters and the cursor at 0 |
| `AppState.FeedState.FetchItems` | App.js:388-405 | a successful fetch replaces the listings (`null` as empty) and puts the cursor at 0, where the clamp leaves it; a failed one keeps both; loading ends false either way |
| `AppState.FeedState.LoadUserSwipes` | App.js:294-311 | with no user both sets become empty and only the clamp moves the cursor; with a user and a failed query nothing changes; otherwise the sets become exactly the `pass` and `favorite` ids of the rows and the cursor goes to 0 |
| `AppState.FeedState.RecordSwipeByUser` | App.js:315-331 | with no user a login is asked for and no upsert is sent; otherwise the upsert carries (user, listing, kind); the sets change, by one insertion, only when the upsert reports no error, and the clamp then follows the deck's new length; the deck only ever loses cards, and after a recorded pass it holds no listing with that id |
| `AppState.FeedState.SetBrandFilter` | App.js:416-419 | the brand filter takes the new value; the cursor ends where the commit's reset effect (when the value changed) and clamp effect (when the deck's length changed, testing the cursor from before the reset) put it |
| `AppState.FeedState.SetSizeFilter` | App.js:416-419 | the size filter takes the new value; the cursor ends where the commit's reset and clamp effects put it, as for the brand filter |
| `AppState.FeedState.CommitEffects` | App.js:431-436 | after a commit the cursor is what the reset and clamp effects make of the rendered cursor; a non-empty deck whose length changed always has a top card afterwards; a cursor at 0 stays at 0 (as it does through every feed step) |
| `Deck.CursorAfterEffects` | App.js:416-436 | when the deck's length changed and the cursor is at or past the end of a non-empty deck, the cursor moves to the last card whether or not a filter changed; otherwise a filter change puts it at 0 and no change keeps it; a changed non-empty deck always ends with the cursor inside it |
| `Deck.FilterChangeClampOverridesReset` | App.js:416-436 | a filter change that shrinks the deck from 6 to 3 cards with the cursor at 5 ends with the cursor at 2, not at 0 |
| `Deck.CursorAtTopStaysAtTop` | App.js:416-436 | a cursor at 0 is still at 0 after any commit, whether or not a filter or the deck's length changed |
| `Deck.FilterChangeResetsIff` | App.js:416-436 | a filter change ends with the cursor at 0 iff the deck's length is unchanged, the old cursor is inside the new deck, or the new deck has at most one card |
| `Deck.IntendedCursorAfterEffects` | App.js:416-419 | the corrected commit: a filter change always ends with the cursor at 0, a changed non-empty deck ends with the cursor inside it, and without a filter change it agrees with the code |
| `AppState.SubmitOutcome` | App.js:484-506 | publishing succeeds iff the upload, the price check and the insert all succeed |
| `AppState.PublishForm.constructor` | App.js:367-375 | the form starts empty, not submitting, on the view screen |
| `AppState.PublishForm.UploadImageAndInsert` | App.js:465-519 | a form without photo, title or price is refused with nothing sent and nothing changed; otherwise the upload is sent with the extension and content type derived from the photo's URI |
| `AppState.PublishForm.Submit` | App.js:470-518 | a failed upload, price check or insert leaves the form and the feed unchanged; a full success clears the form, reloads the feed and returns to the view screen |
| `Upload.LastIndexOf` | App.js:477 | the result is -1 or a position holding the separator, and no later position holds it |
| `Upload.AfterLast` | App.js:477 | the result is the longest suffix holding no separator: a suffix, free of the separator, and preceded by one when shorter than the input |
| `Upload.BeforeFirst` | App.js:477 | the result is the longest prefix holding no separator: a prefix, free of the separator, and followed by one when shorter than the input |
| `Upload.Lower` | App.js:477 | lower-casing keeps the length and changes each character on its own, independently of its neighbours |
| `Upload.ExtGuess` | App.js:477 | the guess never contains a `.` or a `?` |
| `Upload.ImageExtension` | App.js:477-478 | the stored extension is always one of `jpg`, `jpeg`, `png`, `webp`: the guess when it is one of them, `jpg` otherwise |
| `Upload.ContentType` | App.js:479-481 | the content type is `image/png` iff the extension is `png`, `image/webp` iff it is `webp`, and `image/jpeg` otherwise |
| `Upload.ContentTypeMatchesExtension` | App.js:478-481 | for every extension the upload can store, the content type names that extension's format, `jpg` as JPEG |
| `AppState.UploadFor` | App.js:477-481 | the upload's extension is a known one, the guessed extension when that is known and `jpg` otherwise, and its content type names that extension's format |
| `Upload.ExtensionOfNamedFile` | App.js:477-478 | a file named `stem.ext`, with no query string or one that holds no `.`, is stored under its own extension lower-cased whenever that is a known one |
| `Upload.DottedQueryHidesExtension` | App.js:477-481 | a URI whose query string holds a dot, `photo.png?v=1.2`, is stored as `jpg` with content type `image/jpeg`, although the file is a PNG |
| `AuthForms.CheckSignUp` | App.js:155-162 | sign-up is allowed iff email and password are present and the password has at least 8 code units; a missing field is reported before the length |
| `AuthForms.CheckSignIn` | App.js:183-186 | sign-in is allowed iff email and password are present |
| `AuthForms.CheckSetPassword` | App.js:203-210 | a new password is allowed iff it is non-empty, equal to its confirmation and at least 8 code units long; a mismatch is reported before the length |
| `AuthForms.CheckOtpRequest` | App.js:227 | a code can be requested iff an email is present |
| `AuthForms.CheckOtpVerify` | App.js:245 | a code can be verified iff email and code are present |
| `AuthForms.CheckPublish` | App.js:466-469 | a listing can be published iff a photo is picked and title and price are present |
| `AuthForms.SignUpStricterThanSignIn` | App.js:155-186 | every email and password that sign-up accepts, sign-in accepts too |
| `AuthForms.EightCharactersSuffice` | App.js:159-162 | any password of at least eight characters passes the length rule, whatever characters it holds |
| `AuthForms.ShortBmpPasswordRefused` | App.js:159-210 | a non-empty password of fewer than eight characters, all in the Basic Multilingual Plane, is refused as too short by sign-up and by the set-password form |
| `AuthForms.FourAstralCharactersSuffice` | App.js:159-210 | the length rule counts code units: a password of four characters outside the Basic Multilingual Plane passes both forms |
| `AuthForms.MixedPasswordMeasuredByCodeUnits` | App.js:159-162 | a password of five letters and one emoji is seven code units and sign-up refuses it as too short |
| `AuthForms.AuthForm.constructor` | App.js:137-145 | the form starts in sign-in mode at the request stage, empty and not loading |
| `AuthForms.AuthForm.SignUpWithEmailPassword` | App.js:154-180 | a refused form is unchanged and nothing is sent; after the call loading is off and success returns to sign-in mode |
| `AuthForms.AuthForm.SignInWithEmailPassword` | App.js:182-200 | a refused form is unchanged and nothing is sent; after the call only the loading flag changes (the session comes from the identity subscription) |
| `AuthForms.AuthForm.SetPasswordAfterOtp` | App.js:202-224 | a refused form is unchanged and nothing is sent; success clears both passwords and returns to sign-in mode |
| `AuthForms.AuthForm.RequestEmailOtp` | App.js:226-242 | a refused form is unchanged and nothing is sent; success moves to the verify stage |
| `AuthForms.AuthForm.VerifyEmailOtp` | App.js:244-263 | a refused form is unchanged and nothing is sent; success clears the code, returns to the request stage, clears both passwords and switches to set-password mode |
| `Theme.Effective` | src/theme/ThemeProvider.js:26 | under `system` the theme is the system scheme, or `light` when the scheme is unknown; any other preference is the theme itself, whatever the system scheme |
| `Theme.Colors` | src/theme/ThemeProvider.js:27 | the palette is the dark one iff the theme is `dark`, and the light one for every other value |
| `Theme.IsDarkAgreesWithProvider` | App.js:337 | the screen's inlined `isDark` rule picks the dark palette exactly when the provider does, for every preference and scheme |
| `Theme.IsDark` | App.js:337 | dark under the `dark` preference; under `system` dark iff the system scheme is `dark`; light under any other preference |
| `Theme.EffectiveIsConcrete` | src/theme/ThemeProvider.js:10-11 | with a known preference and a scheme the device can report, the effective theme is `light` or `dark`, never `system` |
| `Theme.ThemeProvider.constructor` | src/theme/ThemeProvider.js:11 | the preference starts as `system` |
| `Theme.ThemeProvider.LoadSavedPref` | src/theme/ThemeProvider.js:13-18 | a stored preference replaces the current one only when it is non-empty |
| `Theme.ThemeProvider.SetThemePref` | src/theme/ThemeProvider.js:20-24 | the preference becomes the chosen value |

## Left out

- Screens, navigation, modals, dropdowns, styles and deck geometry are
  presentation. The deck geometry also uses floating-point screen sizes.
- The backend SDK calls for auth, table queries, upserts, inserts, storage
  upload and public URLs are not modelled. Their outcomes are parameters.
- Price parsing (App.js:492-493) uses `parseFloat` and `Math.round` on
  floating point. Its verdict is the parameter `priceAccepted`, and a refused
  price ends the publish attempt as `PriceInvalid`.
- The inserted row is not modelled. This covers its title, brand, size,
  price in cents and image URL.
- The storage path is not modelled, because it uses `Date.now()`.
- The orphaned photo left in storage when a later step fails is not
  modelled. Storage is outside the model.
- Haptics, the image picker and its permission, image prefetching and the
  fetch of the photo's bytes are native effects. A failed fetch of the bytes
  (App.js:473-475) ends the attempt before anything is sent; the model folds
  it into `uploadOk` false, so on that path the upload it reports was not
  actually sent.
- `signOut` and `oauthSignIn` only call the SDK and clear fields. The OAuth
  redirect flow and the identity subscription are outside the model.
- Timing is not modelled: `useEffect`/`useMemo` scheduling, what triggers
  each effect, and races between in-flight requests and resets. Each effect
  body is one step. `CommitEffects` runs the reset and clamp effects after
  the step that changes the filters or the deck. Re-running `loadUserSwipes`
  when the user changes is also scheduling.
- The failure alert of `fetchItems` (App.js:401) and the console output at
  App.js:310, App.js:329 and App.js:400 are not modelled. They only report;
  the state they leave is modelled.
- `len` (App.js:19) is only ever applied to arrays in the modelled code, so
  it is the sequence length `|s|`. Its branches for non-arrays are not
  modelled.
- Persistence of the theme preference and the React context wiring are not
  modelled.
- The palettes are two opaque values, not the colour tables.
- The colour table that `App.js` derives from `isDark` is not modelled.
- `Upload.Lower`: lower-cases only ASCII letters, while `toLowerCase` maps
  all of Unicode. No other character lower-cases to a letter of `jpg`,
  `jpeg`, `png` or `webp`, so the stored extension and the content type are
  unaffected.

## Findings

| source | as written | input that shows it | evidently intended | confidence | as-written member | corrected member |
|---|---|---|---|---|---|---|
| App.js:416-436 | a filter change resets the cursor to 0, but the clamp effect of the same commit tests the cursor from before the reset and writes last | cursor at 5, a filter change that shrinks the deck from 6 to 3 cards: the cursor ends at 2. Latent in App.js as written, where no step moves the cursor off 0 (`Deck.CursorAtTopStaysAtTop`); it shows once any step advances the cursor | the cursor is at 0 after every filter change, as the comment at App.js:416 says | medium, not executed | `Deck.FilterChangeClampOverridesReset` | `Deck.IntendedCursorAfterEffects` |

The feed state (`AppState.FeedState`) follows the code as written; the
corrected commit is stated beside it, and both agree on every commit that
changes no filter and on every commit from a cursor at 0.

=== FILE: app_state.dfy ===
/** The app screen's mutable state: the fetched listings, the swipe sets, the
    filters and the cursor of the deck, and the publish form. Every handler
    and effect is one atomic step; the results of remote calls arrive as
    parameters. */
module AppState {
  import opened JsValues
  import opened Deck
  import opened Swipes
  import opened Upload
  import opened AuthForms

  /** The feed state of the swipe deck. The cursor starts at 0 and every
      step keeps a cursor of 0 at 0, since no step of the screen moves it
      down the deck. */
  class FeedState {
    var items: seq<Listing>
    var loading: bool
    var passedIds: set<ListingId>
    var favoriteIds: set<ListingId>
    var brandFilter: Option<string>
    var sizeFilter: Option<string>
    var index: nat

    constructor ()
      ensures items == [] && loading && index == 0
      ensures passedIds == {} && favoriteIds == {}
      ensures brandFilter == None && sizeFilter == None
    {
      items, loading, index := [], true, 0;
      passedIds, favoriteIds := {}, {};
      brandFilter, sizeFilter := None, None;
    }

    /** The visible deck under the current filters and passed set. */
    function Feed(): seq<Listing>
      reads this
    {
      FeedItems(items, brandFilter, sizeFilter, passedIds)
    }

    /** The effects that run after a commit, with the cursor as the commit
        rendered it: the filter reset when a filter changed, then the clamp
        when the deck's length differs from `previousLength`. */
    method CommitEffects(previousLength: nat, filterChanged: bool)
      modifies this`index
      ensures index == CursorAfterEffects(old(index), filterChanged, previousLength, |Feed()|)
      ensures previousLength != |Feed()| && |Feed()| > 0 ==> Current(Feed(), index).Some?
      ensures old(index) == 0 ==> index == 0
    {
      index := CursorAfterEffects(index, filterChanged, previousLength, |Feed()|);
    }

    /** Takes the active listings fetched from the service: on success they
        replace `items` (`null` as the empty list) and the cursor goes back
        to the top, where the clamp leaves it; on failure nothing but the
        loading flag changes. */
    method FetchItems(response: Response<seq<Listing>>)
      modifies this`items, this`index, this`loading
      ensures !loading
      ensures response.Succeeded? ==> items == response.data.GetOr([]) && index == 0
      ensures response.Failed? ==> items == old(items) && index == old(index)
      ensures old(index) == 0 ==> index == 0
    {
      var previousLength := |Feed()|;
      loading := true;
      if response.Succeeded? {
        items := response.data.GetOr([]);
        index := 0;
        CommitEffects(previousLength, false);
      }
      loading := false;
    }

    /** Rebuilds the swipe sets for the current user. Without a signed-in
        user both sets are emptied, nothing is fetched, and only the clamp
        moves the cursor; a failed query changes nothing; otherwise the sets
        become exactly the ids of the `pass` and `favorite` rows and the
        cursor goes back to the top. */
    method LoadUserSwipes(user: Option<UserId>, response: Response<seq<SwipeRow>>)
      modifies this`passedIds, this`favoriteIds, this`index
      ensures !Truthy(user) ==>
                && passedIds == {} && favoriteIds == {}
                && index == CursorAfterEffects(old(index), false, |old(Feed())|, |Feed()|)
      ensures Truthy(user) && response.Failed? ==>
                passedIds == old(passedIds) && favoriteIds == old(favoriteIds) && index == old(index)
      ensures Truthy(user) && response.Succeeded? ==>
                && passedIds == IdsOfKind(response.data.GetOr([]), Pass)
                && favoriteIds == IdsOfKind(response.data.GetOr([]), Favorite)
                && index == 0
      ensures old(index) == 0 ==> index == 0
    {
      var previousLength := |Feed()|;
      if !Truthy(user) {
        passedIds, favoriteIds := {}, {};
        CommitEffects(previousLength, false);
        return;
      }
      if response.Failed? {
        return;
      }
      var p, f := SortSwipes(response.data.GetOr([]));
      passedIds, favoriteIds := p, f;
      index := 0;
      CommitEffects(previousLength, false);
    }

    /** Records one swipe. Without a signed-in user it only asks for a login
        and sends nothing. Otherwise it sends the upsert keyed on the user
        and listing, and only when that reports no error does the id join
        the set of its kind; a deck that got shorter then clamps the cursor. */
    method RecordSwipeByUser(user: Option<UserId>, kind: string, listingId: ListingId, upsertOk: bool)
      returns (loginRequired: bool, upsert: Option<SwipeUpsert>)
      modifies this`passedIds, this`favoriteIds, this`index
      ensures loginRequired <==> !Truthy(user)
      ensures upsert == if Truthy(user) then Some(SwipeUpsert(user.value, listingId, kind)) else None
      ensures Truthy(user) && upsertOk ==>
                SwipeSets(passedIds, favoriteIds) == ApplySwipe(SwipeSets(old(passedIds), old(favoriteIds)), kind, listingId)
      ensures !(Truthy(user) && upsertOk) ==>
                passedIds == old(passedIds) && favoriteIds == old(favoriteIds) && index == old(index)
      ensures index == CursorAfterEffects(old(index), false, |old(Feed())|, |Feed()|)
      ensures IsSubsequence(Feed(), old(Feed()))
      ensures Truthy(user) && upsertOk && kind == Pass ==> forall x :: x in Feed() ==> x.id != listingId
      ensures old(index) == 0 ==> index == 0
    {
      SubsequenceReflexive(Feed());
      var previousLength := |Feed()|;
      if !Truthy(user) {
        return true, None;
      }
      loginRequired, upsert := false, Some(SwipeUpsert(user.value, listingId, kind));
      if !upsertOk {
        return;
      }
      var s := ApplySwipe(SwipeSets(passedIds, favoriteIds), kind, listingId);
      if kind == Pass {
        PassingShrinksFeed(items, brandFilter, sizeFilter, passedIds, listingId);
      }
      passedIds, favoriteIds := s.passed, s.favorites;
      CommitEffects(previousLength, false);
    }

    /** Sets the brand filter and runs the commit's effects: the reset when
        the value changed, and the clamp, reading the cursor from before the
        reset, when the deck's length changed. */
    method SetBrandFilter(brand: Option<string>)
      modifies this`brandFilter, this`index
      ensures brandFilter == brand
      ensures index == CursorAfterEffects(old(index), brand != old(brandFilter), |old(Feed())|, |Feed()|)
      ensures old(index) == 0 ==> index == 0
    {
      var previousLength := |Feed()|;
      var changed := brand != brandFilter;
      brandFilter := brand;
      CommitEffects(previousLength, changed);
    }

    /** Sets the size filter, with the same effects as the brand filter. */
    method SetSizeFilter(size: Option<string>)
      modifies this`sizeFilter, this`index
      ensures sizeFilter == size
      ensures index == CursorAfterEffects(old(index), size != old(sizeFilter), |old(Feed())|, |Feed()|)
      ensures old(index) == 0 ==> index == 0
    {
      var previousLength := |Feed()|;
      var changed := size != sizeFilter;
      sizeFilter := size;
      CommitEffects(previousLength, changed);
    }
  }

  datatype Screen = View | Create

  /** The object written to storage: its extension and content type. */
  datatype UploadRequest = UploadRequest(ext: string, contentType: string)

  /** The storage metadata the app derives from a photo's URI: a known
      extension, the guessed one when it is known, and the content type of
      that extension's format. */
  function UploadFor(uri: string): (r: UploadRequest)
    ensures r.ext in Extensions
    ensures r.ext == (if ExtGuess(uri) in Extensions then ExtGuess(uri) else "jpg")
    ensures r.contentType == "image/" + (if r.ext == "jpg" then "jpeg" else r.ext)
  {
    var ext := ImageExtension(uri);
    ContentTypeMatchesExtension(ext);
    UploadRequest(ext, ContentType(ext))
  }

  /** How a publish attempt ended. */
  datatype PublishOutcome =
    | Refused(reason: Rejection)  // a required field is missing; nothing sent
    | UploadFailed
    | PriceInvalid                // the price did not parse to a positive amount
    | InsertFailed
    | Published

  /** What the create-listing form holds. */
  datatype PublishFields = PublishFields(
    title: string,
    price: string,
    brand: Option<string>,
    size: Option<string>,
    picked: Option<string>)  // the URI of the picked photo

  const EmptyFields := PublishFields("", "", None, None, None)

  /** How the steps after the checks end, given which of them succeed. */
  function SubmitOutcome(uploadOk: bool, priceAccepted: bool, insertOk: bool): (o: PublishOutcome)
    ensures o == Published <==> uploadOk && priceAccepted && insertOk
    ensures !o.Refused?
  {
    if !uploadOk then UploadFailed
    else if !priceAccepted then PriceInvalid
    else if !insertOk then InsertFailed
    else Published
  }

  /** The create-listing form and the screen mode. */
  class PublishForm {
    var fields: PublishFields
    var submitting: bool
    var screen: Screen

    constructor ()
      ensures fields == EmptyFields && !submitting && screen == View
    {
      fields, submitting, screen := EmptyFields, false, View;
    }

    /** Publishes the form: checks that photo, title and price are present,
        and only then submits it. A refused form changes nothing and sends
        nothing. */
    method UploadImageAndInsert(feed: FeedState, uploadOk: bool, priceAccepted: bool, insertOk: bool,
                                refetch: Response<seq<Listing>>)
      returns (outcome: PublishOutcome, upload: Option<UploadRequest>)
      modifies this, feed
      ensures outcome.Refused? <==> CheckPublish(old(fields.picked), old(fields.title), old(fields.price)) != None
      ensures outcome.Refused? ==> upload == None && unchanged(this) && unchanged(feed)
      ensures !outcome.Refused? ==> old(fields.picked).Some? && upload == Some(UploadFor(old(fields.picked).value))
      ensures !outcome.Refused? ==> outcome == SubmitOutcome(uploadOk, priceAccepted, insertOk)
      ensures !outcome.Refused? && outcome != Published ==>
                !submitting && fields == old(fields) && screen == old(screen) && unchanged(feed)
      ensures outcome == Published ==> !submitting && fields == EmptyFields && screen == View
      ensures outcome == Published ==> feed.passedIds == old(feed.passedIds) && feed.favoriteIds == old(feed.favoriteIds)
      ensures outcome == Published ==> feed.brandFilter == old(feed.brandFilter) && feed.sizeFilter == old(feed.sizeFilter)
      ensures outcome == Published ==> !feed.loading
      ensures outcome == Published && refetch.Succeeded? ==> feed.items == refetch.data.GetOr([]) && feed.index == 0
      ensures outcome == Published && refetch.Failed? ==> feed.items == old(feed.items) && feed.index == old(feed.index)
    {
      var check := CheckPublish(fields.picked, fields.title, fields.price);
      if check.Some? {
        return Refused(check.value), None;
      }
      upload := Some(UploadFor(fields.picked.value));
      outcome := Submit(feed, uploadOk, priceAccepted, insertOk, refetch);
    }

    /** Uploads the photo, checks the price, inserts the row, then clears the
        form, reloads the feed and shows it. A failure at any step leaves the
        form and the feed as they were; a photo already uploaded stays in
        storage. */
    method Submit(feed: FeedState, uploadOk: bool, priceAccepted: bool, insertOk: bool,
                  refetch: Response<seq<Listing>>)
      returns (outcome: PublishOutcome)
      modifies this, feed
      ensures outcome == SubmitOutcome(uploadOk, priceAccepted, insertOk)
      ensures outcome != Published ==> !submitting && fields == old(fields) && screen == old(screen) && unchanged(feed)
      ensures outcome == Published ==> !submitting && fields == EmptyFields && screen == View
      ensures outcome == Published ==> feed.passedIds == old(feed.passedIds) && feed.favoriteIds == old(feed.favoriteIds)
      ensures outcome == Published ==> feed.brandFilter == old(feed.brandFilter) && feed.sizeFilter == old(feed.sizeFilter)
      ensures outcome == Published ==> !feed.loading
      ensures outcome == Published && refetch.Succeeded? ==> feed.items == refetch.data.GetOr([]) && feed.index == 0
      ensures outcome == Published && refetch.Failed? ==> feed.items == old(feed.items) && feed.index == old(feed.index)
    {
      submitting := true;
      outcome := SubmitOutcome(uploadOk, priceAccepted, insertOk);
      if outcome == Published {
        fields := EmptyFields;
        feed.FetchItems(refetch);
        screen := View;
      }
      submitting := false;
    }
  }
}

=== FILE: auth_forms.dfy ===
/** The checks the sign-up, sign-in, password, one-time-code and publish forms
    run before any remote call, and the form state those handlers update. */
module AuthForms {
  import opened JsValues

  /** Why a form was refused, one per alert the app shows. */
  datatype Rejection =
    | CredentialsRequired   // email and password are both required
    | PasswordTooShort      // fewer than 8 UTF-16 code units
    | PasswordsDiffer       // the two passwords are empty or not equal
    | EmailRequired
    | CodeRequired          // email and one-time code are both required
    | PublishFieldsMissing  // photo, title and price are all required

  /** Least length of a password, in UTF-16 code units. */
  const MinPasswordLength := 8

  /** Sign-up: email and password present, then the password long enough. */
  function CheckSignUp(email: string, password: string): (r: Option<Rejection>)
    ensures r == None <==> email != "" && password != "" && Utf16Length(password) >= MinPasswordLength
    ensures r == Some(CredentialsRequired) <==> email == "" || password == ""
    ensures r != None ==> r == Some(CredentialsRequired) || r == Some(PasswordTooShort)
  {
    if email == "" || password == "" then Some(CredentialsRequired)
    else if Utf16Length(password) < MinPasswordLength then Some(PasswordTooShort)
    else None
  }

  /** Sign-in: email and password present; no length rule. */
  function CheckSignIn(email: string, password: string): (r: Option<Rejection>)
    ensures r == None <==> email != "" && password != ""
    ensures r != None ==> r == Some(CredentialsRequired)
  {
    if email == "" || password == "" then Some(CredentialsRequired) else None
  }

  /** Setting a password after a one-time code: both entries equal and
      non-empty, then long enough. */
  function CheckSetPassword(password: string, password2: string): (r: Option<Rejection>)
    ensures r == None <==> password != "" && password == password2 && Utf16Length(password) >= MinPasswordLength
    ensures r == Some(PasswordsDiffer) <==> password == "" || password != password2
    ensures r != None ==> r == Some(PasswordsDiffer) || r == Some(PasswordTooShort)
  {
    if password == "" || password != password2 then Some(PasswordsDiffer)
    else if Utf16Length(password) < MinPasswordLength then Some(PasswordTooShort)
    else None
  }

  /** Requesting a one-time code: an email is present. */
  function CheckOtpRequest(email: string): (r: Option<Rejection>)
    ensures r == None <==> email != ""
    ensures r != None ==> r == Some(EmailRequired)
  {
    if email == "" then Some(EmailRequired) else None
  }

  /** Verifying a one-time code: email and code present. */
  function CheckOtpVerify(email: string, token: string): (r: Option<Rejection>)
    ensures r == None <==> email != "" && token != ""
    ensures r != None ==> r == Some(CodeRequired)
  {
    if email == "" || token == "" then Some(CodeRequired) else None
  }

  /** Publishing: a picked photo (its URI), a title and a price text. */
  function CheckPublish(picked: Option<string>, title: string, price: string): (r: Option<Rejection>)
    ensures r == None <==> picked.Some? && title != "" && price != ""
    ensures r != None ==> r == Some(PublishFieldsMissing)
  {
    if picked.None? || title == "" || price == "" then Some(PublishFieldsMissing) else None
  }

  /** Every form sign-up accepts, sign-in accepts too. */
  lemma SignUpStricterThanSignIn(email: string, password: string)
    ensures CheckSignUp(email, password) == None ==> CheckSignIn(email, password) == None
  {
  }

  /** Any password of at least eight characters passes the length rule,
      whatever characters it holds. */
  lemma EightCharactersSuffice(email: string, password: string)
    requires email != "" && |password| >= MinPasswordLength
    ensures CheckSignUp(email, password) == None
    ensures CheckSetPassword(password, password) == None
  {
  }

  /** A non-empty password of fewer than eight characters, all in the Basic
      Multilingual Plane, is refused as too short by both password forms. */
  lemma ShortBmpPasswordRefused(email: string, password: string)
    requires email != "" && password != ""
    requires InBmp(password) && |password| < MinPasswordLength
    ensures CheckSignUp(email, password) == Some(PasswordTooShort)
    ensures CheckSetPassword(password, password) == Some(PasswordTooShort)
  {
  }

  /** The length rule counts code units, not characters: four emoji make a
      long enough password. */
  lemma FourAstralCharactersSuffice()
    ensures CheckSignUp("a", "\U{1F642}\U{1F642}\U{1F642}\U{1F642}") == None
    ensures CheckSetPassword("\U{1F642}\U{1F642}\U{1F642}\U{1F642}", "\U{1F642}\U{1F642}\U{1F642}\U{1F642}") == None
  {
  }

  /** A mixed password is measured character by character: five letters and
      one emoji are seven code units, one short of the rule. */
  lemma MixedPasswordMeasuredByCodeUnits(email: string)
    requires email != ""
    ensures CheckSignUp(email, "abcde\U{1F642}") == Some(PasswordTooShort)
  {
    Utf16LengthConcat("abcde", "\U{1F642}");
    assert Utf16Length("abcde") == 5;
  }

  datatype AuthMode = SignIn | SignUp | OtpFirst | SetPassword
  datatype AuthStage = Request | Verify

  /** What a handler did: refused before any remote call, or made the call
      and saw it succeed or fail. */
  datatype Attempt = Rejected(reason: Rejection) | Sent(succeeded: bool)

  /** The authentication form's state. Each handler takes the outcome of its
      remote call (no error, no exception) as a parameter. */
  class AuthForm {
    var mode: AuthMode
    var email: string
    var password: string
    var password2: string
    var otpToken: string
    var stage: AuthStage
    var loading: bool

    constructor ()
      ensures mode == SignIn && stage == Request && !loading
      ensures email == "" && password == "" && password2 == "" && otpToken == ""
    {
      mode, stage, loading := SignIn, Request, false;
      email, password, password2, otpToken := "", "", "", "";
    }

    /** Creates an account; on success returns to the sign-in mode. */
    method SignUpWithEmailPassword(remoteOk: bool) returns (a: Attempt)
      modifies this
      ensures CheckSignUp(old(email), old(password)) == None <==> a == Sent(remoteOk)
      ensures a.Rejected? ==> Some(a.reason) == CheckSignUp(old(email), old(password)) && unchanged(this)
      ensures a.Sent? ==> !loading && mode == (if remoteOk then SignIn else old(mode))
      ensures a.Sent? ==> email == old(email) && password == old(password) && password2 == old(password2)
      ensures a.Sent? ==> otpToken == old(otpToken) && stage == old(stage)
    {
      var check := CheckSignUp(email, password);
      if check.Some? {
        return Rejected(check.value);
      }
      loading := true;
      if remoteOk {
        mode := SignIn;
      }
      loading := false;
      a := Sent(remoteOk);
    }

    /** Signs in; the session itself arrives through the identity
        subscription, so only the loading flag changes here. */
    method SignInWithEmailPassword(remoteOk: bool) returns (a: Attempt)
      modifies this
      ensures CheckSignIn(old(email), old(password)) == None <==> a == Sent(remoteOk)
      ensures a.Rejected? ==> Some(a.reason) == CheckSignIn(old(email), old(password)) && unchanged(this)
      ensures a.Sent? ==> !loading && mode == old(mode) && stage == old(stage)
      ensures a.Sent? ==> email == old(email) && password == old(password) && password2 == old(password2)
      ensures a.Sent? ==> otpToken == old(otpToken)
    {
      var check := CheckSignIn(email, password);
      if check.Some? {
        return Rejected(check.value);
      }
      loading := true;
      loading := false;
      a := Sent(remoteOk);
    }

    /** Sets a password after a one-time-code sign-in; on success clears both
        entries and returns to the sign-in mode. */
    method SetPasswordAfterOtp(remoteOk: bool) returns (a: Attempt)
      modifies this
      ensures CheckSetPassword(old(password), old(password2)) == None <==> a == Sent(remoteOk)
      ensures a.Rejected? ==> Some(a.reason) == CheckSetPassword(old(password), old(password2)) && unchanged(this)
      ensures a.Sent? ==> !loading && email == old(email) && otpToken == old(otpToken) && stage == old(stage)
      ensures a.Sent? && remoteOk ==> mode == SignIn && password == "" && password2 == ""
      ensures a.Sent? && !remoteOk ==> mode == old(mode) && password == old(password) && password2 == old(password2)
    {
      var check := CheckSetPassword(password, password2);
      if check.Some? {
        return Rejected(check.value);
      }
      loading := true;
      if remoteOk {
        mode := SignIn;
        password := "";
        password2 := "";
      }
      loading := false;
      a := Sent(remoteOk);
    }

    /** Requests a one-time code by email; on success waits for the code. */
    method RequestEmailOtp(remoteOk: bool) returns (a: Attempt)
      modifies this
      ensures CheckOtpRequest(old(email)) == None <==> a == Sent(remoteOk)
      ensures a.Rejected? ==> Some(a.reason) == CheckOtpRequest(old(email)) && unchanged(this)
      ensures a.Sent? ==> !loading && stage == (if remoteOk then Verify else old(stage))
      ensures a.Sent? ==> mode == old(mode) && email == old(email) && password == old(password)
      ensures a.Sent? ==> password2 == old(password2) && otpToken == old(otpToken)
    {
      var check := CheckOtpRequest(email);
      if check.Some? {
        return Rejected(check.value);
      }
      loading := true;
      if remoteOk {
        stage := Verify;
      }
      loading := false;
      a := Sent(remoteOk);
    }

    /** Verifies the one-time code; on success clears the code, returns to
        the request stage and offers to set a password. */
    method VerifyEmailOtp(remoteOk: bool) returns (a: Attempt)
      modifies this
      ensures CheckOtpVerify(old(email), old(otpToken)) == None <==> a == Sent(remoteOk)
      ensures a.Rejected? ==> Some(a.reason) == CheckOtpVerify(old(email), old(otpToken)) && unchanged(this)
      ensures a.Sent? ==> !loading && email == old(email)
      ensures a.Sent? && remoteOk ==> otpToken == "" && stage == Request
      ensures a.Sent? && remoteOk ==> mode == SetPassword && password == "" && password2 == ""
      ensures a.Sent? && !remoteOk ==> otpToken == old(otpToken) && stage == old(stage) && mode == old(mode)
      ensures a.Sent? && !remoteOk ==> password == old(password) && password2 == old(password2)
    {
      var check := CheckOtpVerify(email, otpToken);
      if check.Some? {
        return Rejected(check.value);
      }
      loading := true;
      if remoteOk {
        otpToken := "";
        stage := Request;
        password, password2 := "", "";
        mode := SetPassword;
      }
      loading := false;
      a := Sent(remoteOk);
    }
  }
}

=== FILE: deck.dfy ===
/** The swipe deck as pure derivations: which listings are visible under the
    brand and size filters and the passed set, and which cards the cursor
    selects. */
module Deck {
  import opened JsValues

  type ListingId = string

  /** One row of the listings table as fetched into the app. */
  datatype Listing = Listing(
    id: ListingId,
    brand: Option<string>,
    size: Option<string>,
    title: string,
    priceCents: int,
    image: string)

  /** A filter admits a field value when it is unset (falsy) or equal to it. */
  predicate Admits(filter: Option<string>, field: Option<string>) {
    Truthy(filter) ==> field == filter
  }

  /** The predicate the feed filter applies to one listing. */
  predicate Visible(x: Listing, brandFilter: Option<string>, sizeFilter: Option<string>, passed: set<ListingId>) {
    Admits(brandFilter, x.brand) && Admits(sizeFilter, x.size) && x.id !in passed
  }

  /** `a` is obtained from `b` by deleting elements, keeping the order. */
  predicate IsSubsequence<T(==)>(a: seq<T>, b: seq<T>)
    decreases |b|
  {
    if a == [] then true
    else if b == [] then false
    else if a[0] == b[0] then IsSubsequence(a[1..], b[1..])
    else IsSubsequence(a, b[1..])
  }

  /** The visible deck: the listings that pass both filters and are not
      passed, in the order of `items`, each occurrence kept once. */
  function FeedItems(items: seq<Listing>, brandFilter: Option<string>, sizeFilter: Option<string>,
                     passed: set<ListingId>): (r: seq<Listing>)
    ensures IsSubsequence(r, items)
    ensures forall x :: multiset(r)[x] == if Visible(x, brandFilter, sizeFilter, passed) then multiset(items)[x] else 0
    ensures forall x :: x in r <==> x in items && Visible(x, brandFilter, sizeFilter, passed)
  {
    if items == [] then []
    else
      var rest := FeedItems(items[1..], brandFilter, sizeFilter, passed);
      assert items == [items[0]] + items[1..];
      if Visible(items[0], brandFilter, sizeFilter, passed) then [items[0]] + rest
      else rest
  }

  /** The card on top of the deck: the feed's element at the cursor, or none
      when the cursor is past the end. */
  function Current(feed: seq<Listing>, index: nat): (r: Option<Listing>)
    ensures r.Some? <==> 0 < |feed| && index < |feed|
    ensures r.Some? ==> r.value == feed[index]
  {
    if 0 < |feed| && index < |feed| then Some(feed[index]) else None
  }

  /** The card under the top one, whose image is prefetched. */
  function NextItem(feed: seq<Listing>, index: nat): (r: Option<Listing>)
    ensures r.Some? <==> index + 1 < |feed|
    ensures r.Some? ==> r.value == feed[index + 1]
  {
    if 0 < |feed| && index < |feed| && index + 1 < |feed| then Some(feed[index + 1]) else None
  }

  /** The card under the top one is the card that would be on top one
      position further on; a next card never exists without a current one. */
  lemma NextIsCurrentOfFollowing(feed: seq<Listing>, index: nat)
    ensures NextItem(feed, index).Some? ==> Current(feed, index).Some?
    ensures NextItem(feed, index) == Current(feed, index + 1)
  {
  }

  /** The cursor after the effects of one commit, as the code runs them.
      The reset effect writes 0 when a filter changed; after it, the clamp
      effect, which runs when the deck's length changed, writes `length - 1`
      when the cursor is at or past the end of a non-empty deck. Both effects
      read the cursor as it was when the commit rendered, and the last write
      wins. */
  function CursorAfterEffects(index: nat, filterChanged: bool, previousLength: nat, length: nat): (r: nat)
    ensures previousLength != length && length > 0 ==> r < length
    ensures previousLength != length && index >= length > 0 ==> r == length - 1
    ensures !(previousLength != length && index >= length > 0) ==> r == (if filterChanged then 0 else index)
  {
    var reset := if filterChanged then 0 else index;
    if previousLength != length && index >= length && length > 0 then length - 1 else reset
  }

  /** A filter change does not always bring the cursor back to the top: when
      it shortens the deck below the cursor, the clamp, reading the cursor
      from before the reset, overrides the reset. From cursor 5 on a deck of
      6 to a deck of 3 the cursor ends on the last card, 2. */
  lemma FilterChangeClampOverridesReset()
    ensures CursorAfterEffects(5, true, 6, 3) == 2
  {
  }

  /** A filter change leaves the cursor at 0 exactly when the clamp does not
      move it elsewhere: the length is unchanged, the old cursor is inside
      the new deck, or the new deck is empty or has its last card at 0. */
  lemma FilterChangeResetsIff(index: nat, previousLength: nat, length: nat)
    ensures CursorAfterEffects(index, true, previousLength, length) == 0 <==>
              previousLength == length || index < length || length <= 1
  {
  }

  /** A cursor at the top stays there: neither effect moves a cursor of 0,
      so the clamp's override of the reset needs a cursor that some other
      step moved down the deck. */
  lemma CursorAtTopStaysAtTop(filterChanged: bool, previousLength: nat, length: nat)
    ensures CursorAfterEffects(0, filterChanged, previousLength, length) == 0
  {
  }

  /** The cursor after one commit as the reset effect's comment intends it:
      the clamp reads the cursor after the reset. */
  function IntendedCursorAfterEffects(index: nat, filterChanged: bool, previousLength: nat, length: nat): (r: nat)
    ensures filterChanged ==> r == 0
    ensures previousLength != length && length > 0 ==> r < length
    ensures !filterChanged ==> r == CursorAfterEffects(index, false, previousLength, length)
  {
    var reset := if filterChanged then 0 else index;
    if previousLength != length && reset >= length && length > 0 then length - 1 else reset
  }

  /** With no filter set and nothing passed, the feed is the fetched list. */
  lemma {:induction false} FeedWithoutFiltersIsItems(items: seq<Listing>)
    ensures FeedItems(items, None, None, {}) == items
  {
    if items != [] {
      FeedWithoutFiltersIsItems(items[1..]);
    }
  }

  /** Passing one more listing only removes cards from the deck: the new deck
      is a subsequence of the old one and holds no listing with that id. */
  lemma {:induction false} PassingShrinksFeed(items: seq<Listing>, brandFilter: Option<string>, sizeFilter: Option<string>,
                                               passed: set<ListingId>, id: ListingId)
    ensures IsSubsequence(FeedItems(items, brandFilter, sizeFilter, passed + {id}),
                          FeedItems(items, brandFilter, sizeFilter, passed))
    ensures forall x :: x in FeedItems(items, brandFilter, sizeFilter, passed + {id}) ==> x.id != id
  {
    if items != [] {
      PassingShrinksFeed(items[1..], brandFilter, sizeFilter, passed, id);
      var after := FeedItems(items[1..], brandFilter, sizeFilter, passed + {id});
      var before := FeedItems(items[1..], brandFilter, sizeFilter, passed);
      if Visible(items[0], brandFilter, sizeFilter, passed) && !Visible(items[0], brandFilter, sizeFilter, passed + {id}) {
        SubsequenceOfTail(after, items[0], before);
      }
    }
  }

  /** Every list is a subsequence of itself. */
  lemma {:induction false} SubsequenceReflexive<T>(a: seq<T>)
    ensures IsSubsequence(a, a)
    decreases |a|
  {
    if a != [] {
      SubsequenceReflexive(a[1..]);
    }
  }

  /** Dropping into a longer list keeps a subsequence one. */
  lemma {:induction false} SubsequenceOfTail<T>(a: seq<T>, x: T, b: seq<T>)
    requires IsSubsequence(a, b)
    ensures IsSubsequence(a, [x] + b)
    decreases |b|, 1
  {
    if a != [] && a[0] == x {
      assert ([x] + b)[1..] == b;
      SubsequenceDropHead(a, b);
    } else {
      assert ([x] + b)[1..] == b;
    }
  }

  /** A subsequence stays one after removing its first element. */
  lemma {:induction false} SubsequenceDropHead<T>(a: seq<T>, b: seq<T>)
    requires a != [] && IsSubsequence(a, b)
    ensures IsSubsequence(a[1..], b)
    decreases |b|, 0
  {
    if a[0] == b[0] {
      if a[1..] != [] {
        SubsequenceOfTail(a[1..], b[0], b[1..]);
        assert [b[0]] + b[1..] == b;
      }
    } else {
      SubsequenceDropHead(a, b[1..]);
      if a[1..] != [] {
        SubsequenceOfTail(a[1..], b[0], b[1..]);
        assert [b[0]] + b[1..] == b;
      }
    }
  }
}

=== FILE: js_values.dfy ===
/** Values as the app's JavaScript sees them: optional values, truthiness of
    strings, responses of the remote service and string lengths. */
module JsValues {

  /** A value that may be `null` or `undefined`. */
  datatype Option<+T> = None | Some(value: T) {
    function GetOr(default: T): T {
      match this
      case Some(v) => v
      case None => default
    }
  }

  /** The reply of one remote query: an error, or rows that may be `null`. */
  datatype Response<+T> = Failed | Succeeded(data: Option<T>)

  /** JavaScript truthiness of a string that may be absent: `null`,
      `undefined` and the empty string are falsy. */
  predicate Truthy(s: Option<string>) {
    s.Some? && s.value != ""
  }

  /** Every character of `s` lies in the Basic Multilingual Plane, so each
      is one UTF-16 code unit. */
  predicate InBmp(s: string) {
    forall i :: 0 <= i < |s| ==> s[i] as int <= 0xFFFF
  }

  /** `s.length` in JavaScript counts UTF-16 code units: a character outside
      the Basic Multilingual Plane takes two of them. */
  function Utf16Length(s: string): (n: nat)
    ensures |s| <= n <= 2 * |s|
    ensures n == 0 <==> s == ""
    ensures n == |s| <==> InBmp(s)
    ensures n == 2 * |s| <==> forall i :: 0 <= i < |s| ==> s[i] as int > 0xFFFF
    ensures |s| == 1 ==> n == if s[0] as int > 0xFFFF then 2 else 1
  {
    if s == [] then 0
    else (if s[0] as int > 0xFFFF then 2 else 1) + Utf16Length(s[1..])
  }

  /** The code-unit count of a concatenation is the sum of the parts' counts;
      with the count of one character this fixes the count of every string. */
  lemma {:induction false} Utf16LengthConcat(a: string, b: string)
    ensures Utf16Length(a + b) == Utf16Length(a) + Utf16Length(b)
  {
    if a != [] {
      assert (a + b)[1..] == a[1..] + b;
      Utf16LengthConcat(a[1..], b);
    } else {
      assert a + b == b;
    }
  }
}

=== FILE: swipes.dfy ===
/** The user's swipe decisions as the app caches them: two sets of listing ids,
    rebuilt from the stored rows and extended by each recorded swipe. */
module Swipes {
  import opened Deck

  type UserId = string

  /** One stored decision as selected from the swipes table. */
  datatype SwipeRow = SwipeRow(listingId: ListingId, kind: string)

  /** The upsert sent for one swipe, keyed on the (user, listing) pair. */
  datatype SwipeUpsert = SwipeUpsert(userId: UserId, listingId: ListingId, kind: string)

  /** The passed and favorite id sets. */
  datatype SwipeSets = SwipeSets(passed: set<ListingId>, favorites: set<ListingId>)

  const Pass := "pass"
  const Favorite := "favorite"

  /** The ids of the rows of one kind. */
  function IdsOfKind(rows: seq<SwipeRow>, kind: string): set<ListingId> {
    set r | r in rows && r.kind == kind :: r.listingId
  }

  /** Sorts the rows into the passed and favorite sets, one row at a time;
      rows of any other kind are skipped. */
  method SortSwipes(rows: seq<SwipeRow>) returns (passed: set<ListingId>, favorites: set<ListingId>)
    ensures forall id :: id in passed <==> exists r :: r in rows && r.kind == Pass && r.listingId == id
    ensures forall id :: id in favorites <==> exists r :: r in rows && r.kind == Favorite && r.listingId == id
  {
    passed, favorites := {}, {};
    for i := 0 to |rows|
      invariant passed == IdsOfKind(rows[..i], Pass)
      invariant favorites == IdsOfKind(rows[..i], Favorite)
    {
      IdsOfKindAppend(rows[..i], rows[i], Pass);
      IdsOfKindAppend(rows[..i], rows[i], Favorite);
      assert rows[..i + 1] == rows[..i] + [rows[i]];
      if rows[i].kind == Pass {
        passed := passed + {rows[i].listingId};
      }
      if rows[i].kind == Favorite {
        favorites := favorites + {rows[i].listingId};
      }
    }
    assert rows[..|rows|] == rows;
  }

  /** Appending a row adds its id to the set of its own kind and to no other. */
  lemma IdsOfKindAppend(rows: seq<SwipeRow>, row: SwipeRow, kind: string)
    ensures IdsOfKind(rows + [row], kind) == IdsOfKind(rows, kind) + (if row.kind == kind then {row.listingId} else {})
  {
    var lhs, rhs := IdsOfKind(rows + [row], kind), IdsOfKind(rows, kind) + (if row.kind == kind then {row.listingId} else {});
    forall id | id in lhs ensures id in rhs {
      var r :| r in rows + [row] && r.kind == kind && r.listingId == id;
      if r != row {
        assert r in rows;
      }
    }
    forall id | id in rhs ensures id in lhs {
      if id in IdsOfKind(rows, kind) {
        var r :| r in rows && r.kind == kind && r.listingId == id;
        assert r in rows + [row];
      } else {
        assert row in rows + [row];
      }
    }
  }

  /** The sets after an upsert of `kind` for `id` succeeded: a pass joins the
      passed set, a favorite joins the favorite set, any other kind changes
      neither. */
  function ApplySwipe(s: SwipeSets, kind: string, id: ListingId): (r: SwipeSets)
    ensures id in r.passed <==> id in s.passed || kind == Pass
    ensures id in r.favorites <==> id in s.favorites || kind == Favorite
    ensures forall other :: other != id ==> (other in r.passed <==> other in s.passed)
    ensures forall other :: other != id ==> (other in r.favorites <==> other in s.favorites)
  {
    SwipeSets(
      if kind == Pass then s.passed + {id} else s.passed,
      if kind == Favorite then s.favorites + {id} else s.favorites)
  }

  /** Recording the same swipe twice leaves the sets as recording it once. */
  lemma ApplySwipeIdempotent(s: SwipeSets, kind: string, id: ListingId)
    ensures ApplySwipe(ApplySwipe(s, kind, id), kind, id) == ApplySwipe(s, kind, id)
  {
  }

  /** Swipes only ever add ids: both sets grow or stay as they were. */
  lemma ApplySwipeMonotone(s: SwipeSets, kind: string, id: ListingId)
    ensures s.passed <= ApplySwipe(s, kind, id).passed
    ensures s.favorites <= ApplySwipe(s, kind, id).favorites
  {
  }

  /** Loading a row of an unknown kind changes neither set. */
  lemma OtherKindsIgnored(rows: seq<SwipeRow>, row: SwipeRow)
    requires row.kind != Pass && row.kind != Favorite
    ensures IdsOfKind(rows + [row], Pass) == IdsOfKind(rows, Pass)
    ensures IdsOfKind(rows + [row], Favorite) == IdsOfKind(rows, Favorite)
  {
    IdsOfKindAppend(rows, row, Pass);
    IdsOfKindAppend(rows, row, Favorite);
  }
}

=== FILE: theme.dfy ===
/** Theme resolution: a stored preference (`system`, `light` or `dark`)
    together with the device's colour scheme decides the effective theme and
    the palette. */
module Theme {
  import opened JsValues

  /** The two palettes of the design tokens, as opaque values. */
  datatype Palette = LightPalette | DarkPalette

  const System := "system"
  const Light := "light"
  const Dark := "dark"

  /** The effective theme: the system scheme (light when it is unknown) under
      the `system` preference, the preference itself otherwise. */
  function Effective(pref: string, systemScheme: Option<string>): (theme: string)
    ensures pref != System ==> theme == pref
    ensures pref == System && Truthy(systemScheme) ==> theme == systemScheme.value
    ensures pref == System && !Truthy(systemScheme) ==> theme == Light
  {
    if pref == System then (if Truthy(systemScheme) then systemScheme.value else Light) else pref
  }

  /** The palette: dark for the `dark` theme, light for every other value,
      including stored strings the app does not know. */
  function Colors(theme: string): (p: Palette)
    ensures p == DarkPalette <==> theme == Dark
  {
    if theme == Dark then DarkPalette else LightPalette
  }

  /** The older rule inlined in the app screen: dark when the preference is
      dark, or when it follows a dark system scheme. */
  function IsDark(themePref: string, scheme: Option<string>): (dark: bool)
    ensures themePref == Dark ==> dark
    ensures themePref == System ==> (dark <==> scheme == Some(Dark))
    ensures themePref != Dark && themePref != System ==> !dark
  {
    themePref == Dark || (themePref == System && scheme == Some(Dark))
  }

  /** The screen's inlined rule and the provider pick the same palette for
      every preference and every system scheme. */
  lemma IsDarkAgreesWithProvider(pref: string, scheme: Option<string>)
    ensures IsDark(pref, scheme) <==> Colors(Effective(pref, scheme)) == DarkPalette
  {
  }

  /** With one of the three known preferences and a scheme the device can
      report, the effective theme is light or dark, never `system`. */
  lemma EffectiveIsConcrete(pref: string, scheme: Option<string>)
    requires pref in [System, Light, Dark]
    requires scheme in [None, Some(Light), Some(Dark)]
    ensures Effective(pref, scheme) in [Light, Dark]
  {
  }

  /** The theme state: the user's preference. */
  class ThemeProvider {
    var pref: string

    /** The preference starts as `system`. */
    constructor ()
      ensures pref == System
    {
      pref := System;
    }

    /** Applies the value read back from storage: only a non-empty value
        replaces the preference. */
    method LoadSavedPref(saved: Option<string>)
      modifies this
      ensures Truthy(saved) ==> pref == saved.value
      ensures !Truthy(saved) ==> pref == old(pref)
    {
      if Truthy(saved) {
        pref := saved.value;
      }
    }

    /** Sets the preference; writing it to storage is not modelled. */
    method SetThemePref(p: string)
      modifies this
      ensures pref == p
    {
      pref := p;
    }
  }
}

=== FILE: upload.dfy ===
/** The storage metadata of a picked image: the file extension guessed from
    its URI and the content type sent with the upload. */
module Upload {

  /** The extensions the upload accepts; anything else becomes `jpg`. */
  const Extensions: seq<string> := ["jpg", "jpeg", "png", "webp"]

  /** The position of the last `c` in `s`, or -1 when there is none. */
  function LastIndexOf(s: string, c: char): (k: int)
    ensures -1 <= k < |s|
    ensures k >= 0 ==> s[k] == c
    ensures forall j :: k < j < |s| ==> s[j] != c
    decreases |s|
  {
    if s == [] then -1
    else if s[|s| - 1] == c then |s| - 1
    else LastIndexOf(s[..|s| - 1], c)
  }

  /** The text after the last `c` of `s` (all of `s` when it holds no `c`):
      what `s.split(c).pop()` returns. */
  function AfterLast(s: string, c: char): (r: string)
    ensures |r| <= |s| && r == s[|s| - |r|..]
    ensures forall i :: 0 <= i < |r| ==> r[i] != c
    ensures |r| < |s| ==> s[|s| - |r| - 1] == c
  {
    s[LastIndexOf(s, c) + 1..]
  }

  /** The text before the first `c` of `s` (all of `s` when it holds no `c`):
      what `s.split(c)[0]` returns. */
  function BeforeFirst(s: string, c: char): (r: string)
    ensures forall i :: 0 <= i < |r| ==> r[i] != c
    ensures |r| <= |s| && r == s[..|r|]
    ensures |r| < |s| ==> s[|r|] == c
  {
    if s == [] then []
    else if s[0] == c then []
    else [s[0]] + BeforeFirst(s[1..], c)
  }

  function LowerChar(c: char): char {
    if 'A' <= c <= 'Z' then (c as int + 32) as char else c
  }

  /** `toLowerCase` on the ASCII letters. */
  function Lower(s: string): (r: string)
    ensures |r| == |s|
    ensures forall i :: 0 <= i < |s| ==> r[i] == LowerChar(s[i])
  {
    if s == [] then [] else [LowerChar(s[0])] + Lower(s[1..])
  }

  /** The guessed extension: the text after the last `.` of the URI (or `jpg`
      when that is empty), cut at the first `?`, lower-cased. */
  function ExtGuess(uri: string): (g: string)
    ensures '.' !in g && '?' !in g
  {
    var last := AfterLast(uri, '.');
    var cut := BeforeFirst(if last == "" then "jpg" else last, '?');
    var g := Lower(cut);
    assert forall i :: 0 <= i < |cut| ==> cut[i] != '.' && cut[i] != '?';
    assert forall i :: 0 <= i < |g| ==> g[i] == LowerChar(cut[i]);
    g
  }

  /** The extension the file is stored under: the guess when it is a known
      image extension, `jpg` otherwise. */
  function ImageExtension(uri: string): (ext: string)
    ensures ext in Extensions
    ensures ExtGuess(uri) in Extensions ==> ext == ExtGuess(uri)
    ensures ExtGuess(uri) !in Extensions ==> ext == "jpg"
  {
    var guess := ExtGuess(uri);
    if guess in Extensions then guess else "jpg"
  }

  /** The content type of the upload: PNG and WebP by name, JPEG otherwise. */
  function ContentType(ext: string): (ct: string)
    ensures ct in ["image/png", "image/webp", "image/jpeg"]
    ensures ct == "image/png" <==> ext == "png"
    ensures ct == "image/webp" <==> ext == "webp"
  {
    if ext == "png" then "image/png"
    else if ext == "webp" then "image/webp"
    else "image/jpeg"
  }

  /** The content type always names the stored extension's format
      (`jpg` and `jpeg` both as JPEG). */
  lemma ContentTypeMatchesExtension(ext: string)
    requires ext in Extensions
    ensures ContentType(ext) == "image/" + (if ext == "jpg" then "jpeg" else ext)
  {
    if ext == "jpg" || ext == "jpeg" {
      assert "image/" + "jpeg" == "image/jpeg";
    } else if ext == "png" {
      assert "image/" + "png" == "image/png";
    } else {
      assert ext == "webp";
      assert "image/" + "webp" == "image/webp";
    }
  }

  /** A file named `stem.ext`, with no query string or one that holds no `.`,
      is stored under its own extension, lower-cased, whenever that is a
      known one. */
  lemma ExtensionOfNamedFile(stem: string, ext: string, query: string)
    requires Lower(ext) in Extensions
    requires '.' !in ext && '?' !in ext
    requires '.' !in query && (query == [] || query[0] == '?')
    ensures ImageExtension(stem + "." + ext + query) == Lower(ext)
  {
    var uri := stem + "." + ext + query;
    assert uri == stem + ['.'] + (ext + query);
    AfterLastOfSuffix(stem, '.', ext + query);
    assert AfterLast(uri, '.') == ext + query;
    assert |Lower(ext)| == |ext| > 0;
    BeforeFirstOfPrefix(ext, '?', query);
    ExtGuessOfNonEmpty(uri);
    assert ExtGuess(uri) == Lower(ext);
  }

  /** A dot in the query string hides the file's own extension: the guess is
      the text after that dot, so a PNG is stored as `jpg` and sent as JPEG. */
  lemma DottedQueryHidesExtension()
    ensures ImageExtension("photo.png?v=1.2") == "jpg"
    ensures ContentType(ImageExtension("photo.png?v=1.2")) == "image/jpeg"
  {
    AfterLastOfSuffix("photo.png?v=1", '.', "2");
    assert "photo.png?v=1" + ['.'] + "2" == "photo.png?v=1.2";
    ExtGuessOfNonEmpty("photo.png?v=1.2");
    BeforeFirstOfPrefix("2", '?', "");
    assert "2" + "" == "2";
    assert Lower("2") == "2";
  }

  /** When the URI's last segment is not empty, the guess is that segment
      cut at its first `?`, lower-cased. */
  lemma ExtGuessOfNonEmpty(uri: string)
    requires AfterLast(uri, '.') != ""
    ensures ExtGuess(uri) == Lower(BeforeFirst(AfterLast(uri, '.'), '?'))
  {
  }

  /** The text after the last `c` of `s + [c] + t` is `t` when `t` holds no `c`. */
  lemma AfterLastOfSuffix(s: string, c: char, t: string)
    requires c !in t
    ensures AfterLast(s + [c] + t, c) == t
  {
    var u := s + [c] + t;
    assert u[|s|] == c;
    assert forall j :: |s| < j < |u| ==> u[j] == t[j - |s| - 1];
    assert LastIndexOf(u, c) == |s|;
    assert u[|s| + 1..] == t;
  }

  /** The text before the first `c` of `t + rest` is `t` when `t` holds no `c`
      and `rest` is empty or starts with `c`. */
  lemma {:induction false} BeforeFirstOfPrefix(t: string, c: char, rest: string)
    requires c !in t
    requires rest == [] || rest[0] == c
    ensures BeforeFirst(t + rest, c) == t
  {
    if t != [] {
      assert (t + rest)[1..] == t[1..] + rest;
      assert t[0] in t;
      BeforeFirstOfPrefix(t[1..], c, rest);
      assert [t[0]] + t[1..] == t;
    }
  }
}
